=== FILE: README.md ===
# Zeitrise calendar tower: discrete core

Zeitrise draws a decade as a tower of twelve-sided year slices. Each slice is
cut into twelve month sectors, and each sector holds a grid of day tiles that
the user can hover and select. Most of the code is React and three.js
rendering. This project models the discrete logic underneath it, in Dafny:

- **Radial distribution** (`Radial`, `distribution.tsx`). `segments` slots are
  produced. Slot `i` is turned by `i/segments` of a full revolution, sits at
  the shared position and the shared radius, and holds `elements[i]` if there
  is one.
- **Year slice** (`YearDodecagon`, `year-dodecagon.tsx`). The fixed day-tile
  grid has 31 tiles: weeks 0–3 hold seven days and week 4 holds three. The
  slice builds one month group per `Month` entry. The year separator is drawn
  only below height 9. The lower plinth carries the `NN : KEY` month legend.
- **Day tile** (`DaySquare`, `day-square.tsx`). A tile has two flags, selected
  and hovered. A click toggles selected, and pointer enter and leave set
  hovered. Depth and colours follow one priority: selected, then hovered,
  then regular. The hover label is shown exactly when the tile is hovered,
  whether or not it is selected.
- **Canvas store** (`CanvasStore`, `canvas-context.tsx`). A flat record with
  three single-field setters. The accessor fails outside a provider.
- Two helpers: `Wrappers` (Option and Result) and `Text`. `Text` holds
  JavaScript's integer `toString()` and `padStart`, with a parse-back
  function used to state round trips.

The code does no calendar arithmetic. It computes no month lengths, weekdays
or week-of-month numbers. Every month of every year gets the same 31-tile
pattern, and the model follows the code in this.

Angles are exact fractions of a full turn; the source multiplies by 2π in
floating point. Positions, radii and depths are exact reals. Dafny's `real` is
exact, so no rounding is modelled.

## Model

| member | source | states |
|---|---|---|
| Text.Decimal | src/app/components/meshes/day-square.tsx:129 | `toString()` of a non-negative integer is a non-empty string of digits. It is one character long exactly below 10, and a longer spelling never starts with `0` |
| Text.DecimalRoundTrip | src/app/components/meshes/day-square.tsx:129 | Reading back the decimal spelling `toString()` gives of a non-negative integer gives that integer, so the spelling loses nothing |
| Text.DecimalInjective | src/app/components/meshes/year-dodecagon.tsx:176 | Two non-negative integers have the same decimal spelling iff they are equal |
| Text.PadStart | src/app/components/meshes/day-square.tsx:129 | `padStart` gives a result of length max(len, width), ending in the original string, with only fill characters in front; it never truncates |
| Text.TwoDigitRead | src/app/components/meshes/day-square.tsx:129 | `toString().padStart(2, '0')` of any non-negative integer is all digits and reads back as that number. It is exactly two characters below 10 and otherwise the plain spelling, with no extra zeros |
| Text.TwoDigitSpelling | src/app/components/meshes/year-dodecagon.tsx:142 | Below 100, the two-digit pad is exactly the tens digit then the units digit, and it reads back as the number |
| Radial.SlotCount | src/app/components/layout/distribution.tsx:17 | `Array.from({length: segments})` has `segments` entries, or none when `segments` is negative |
| Radial.ElementAt | src/app/components/layout/distribution.tsx:23 | `elements[i]` is present exactly when `i` is within the array, and is then the `i`-th element |
| Radial.SlotsFrom | src/app/components/layout/distribution.tsx:17-27 | The `map` callback, visited from index `i` upward, yields slots `i`..`segments-1`, each with its own index as key, turn `index/segments`, the shared position and radius, and `elements[index]` |
| Radial.Distribute | src/app/components/layout/distribution.tsx:17-23 | Exactly `segments` slots are produced, keyed 0..segments-1 in order; slot `i` is at turn `i/segments`, at the shared position and radial distance, holding `elements[i]` or nothing |
| Radial.RadialDistribution | src/app/components/layout/distribution.tsx:4-5 | An omitted `segments` means 12 slots and an omitted `radius` means distance 1 |
| Radial.PlacedInOrder | src/app/components/layout/distribution.tsx:23 | When there are at least as many elements as slots, slot `i` holds exactly `elements[i]` |
| Radial.FirstTurnIsZero | src/app/components/layout/distribution.tsx:18 | Slot 0 is not rotated |
| Radial.TurnsIncreaseBelowFullTurn | src/app/components/layout/distribution.tsx:18 | Turns strictly increase with the slot index and all lie in [0, 1) of a revolution |
| Radial.TurnsEvenlySpaced | src/app/components/layout/distribution.tsx:18 | Neighbouring slots are exactly 1/segments apart, and so are the last slot and the first across the full turn: even spacing with no gap and no overlap |
| Radial.PlacementOfElements | src/app/components/layout/distribution.tsx:23 | With exactly `segments` elements every slot is filled in order; surplus elements (index ≥ segments) are never placed; a missing element leaves its slot empty |
| DaySquare.DayOfYear | src/app/components/meshes/day-square.tsx:88 | `week * 7 + day` is the running index of the tile; for a day below 7, dividing it by seven gives back the week as quotient and the day as remainder |
| DaySquare.GroupKey | src/app/components/meshes/day-square.tsx:99 | The outer group key is `day-` followed by digits, and those digits read back as the tile's `dayOfYear` |
| DaySquare.Step | src/app/components/meshes/day-square.tsx:100-109 | A click flips selected and keeps hovered; pointer enter sets hovered, pointer leave clears it, and neither changes selected |
| DaySquare.RunEffect | src/app/components/meshes/day-square.tsx:100-109 | Over any event sequence, selected ends up toggled iff the number of clicks is odd, and hovered equals whatever the last enter or leave set |
| DaySquare.InitialThenClicks | src/app/components/meshes/day-square.tsx:83-84 | A tile starts neither selected nor hovered, and after `n` clicks it is selected iff `n` is odd |
| DaySquare.EmphasisOf | src/app/components/meshes/day-square.tsx:91-95 | The look is Selected iff selected, Hovered iff hovered but not selected, Regular iff neither |
| DaySquare.MeshDepth | src/app/components/meshes/day-square.tsx:91-95 | Depth is 0.4 iff selected, 0.3 iff hovered and not selected, 0.15 iff neither |
| DaySquare.DepthPriority | src/app/components/meshes/day-square.tsx:91-95 | A selected tile's depth ignores hover, and regular < hovered < selected |
| DaySquare.OuterColor | src/app/components/meshes/day-square.tsx:29-46 | The outer colour is `#eefffc` iff the tile is selected or hovered, and `#00ffdd` iff neither |
| DaySquare.InnerColor | src/app/components/meshes/day-square.tsx:35-52 | The inner colour is `#00d0b4` in every state |
| DaySquare.HoverLabel | src/app/components/meshes/day-square.tsx:119-131 | A label is shown iff the tile is hovered; it is all digits, reads back as `day + 1`, and is exactly two characters below 10 and otherwise as long as the plain spelling (no extra leading zeros) |
| DaySquare.LabelIgnoresWeek | src/app/components/meshes/day-square.tsx:129 | Two tiles in the same column show the same label whatever their week |
| DaySquare.GridLabel | src/app/components/meshes/day-square.tsx:129 | For the seven grid columns the label is `0` followed by the digit `day + 1` (`01`..`07`) |
| YearDodecagon.MonthsEnumerated | src/app/components/meshes/year-dodecagon.tsx:115-128 | The `Month` enum lists twelve months in declaration order, each exactly once, with pairwise distinct keys |
| YearDodecagon.Key | src/app/components/meshes/year-dodecagon.tsx:115-128 | The name `Object.keys(Month)` lists for an enum member is three capital letters (the identifier `JAN` … `DEC`), never the string value such as `January` |
| YearDodecagon.RowFrom | src/app/components/meshes/year-dodecagon.tsx:172-182 | The inner loop of week `w` emits days `d`..lastWeekDays-1 of that week, in increasing day order |
| YearDodecagon.WeeksFrom | src/app/components/meshes/year-dodecagon.tsx:171-183 | The outer loop from week `w` emits 31 − 7w tiles (none from week 5), and its k-th tile is the closed-form tile number 7w + k |
| YearDodecagon.DayTiles | src/app/components/meshes/year-dodecagon.tsx:170-183 | The tile loop emits exactly 31 tiles, and tile `i` is column `i % 7` of week `i / 7` |
| YearDodecagon.GridContents | src/app/components/meshes/year-dodecagon.tsx:171-173 | A (day, week) pair is emitted iff week < 5, day < 7, and day < 3 when week = 4 |
| YearDodecagon.WeekMajorOrder | src/app/components/meshes/year-dodecagon.tsx:171-181 | Tiles are emitted in week-major, day-minor order, so no tile is emitted twice |
| YearDodecagon.TilesPerWeek | src/app/components/meshes/year-dodecagon.tsx:171-173 | Weeks 0–3 get 7 tiles each, week 4 gets 3, and any other week gets none |
| YearDodecagon.DayOfYearNumbering | src/app/components/meshes/day-square.tsx:88 | `week*7 + day` numbers the emitted tiles 0..30 in emission order: it is injective on them and hits exactly 0..30 |
| YearDodecagon.TileKey | src/app/components/meshes/year-dodecagon.tsx:176 | The tile element key `day-{day}-week-{week}` reads back: after `day-`, the run of digits reads as the day, then comes `-week-`, and the remaining digits read as the week |
| YearDodecagon.TileKeyInjective | src/app/components/meshes/year-dodecagon.tsx:176 | Two tiles have the same key `day-{day}-week-{week}` iff they are the same tile |
| YearDodecagon.ReadsOnce | src/app/components/meshes/year-dodecagon.tsx:176 | A key of that shape reads as one pair of coordinates only |
| YearDodecagon.KeysDistinct | src/app/components/meshes/year-dodecagon.tsx:176 | The 31 tile keys are pairwise distinct, and so are the 31 inner group keys `day-{dayOfYear}` |
| YearDodecagon.MonthGroupsFor | src/app/components/meshes/year-dodecagon.tsx:185-199 | One month group is built per month entry, each with the same position, backdrop curve and tile list |
| YearDodecagon.MonthSlotsFilled | src/app/components/meshes/year-dodecagon.tsx:208-213 | The slice hands 12 groups to a 12-segment distribution: every slot is filled with the shared tile list, none is dropped, all at height + 0.12 and radius 2.43 |
| YearDodecagon.SliceAt | src/app/components/meshes/year-dodecagon.tsx:201-215 | The dodecagon is drawn at every height; the separator is drawn iff height < 9; the twelve month slots all hold the 31-tile grid |
| YearDodecagon.YearDodecagonSlice | src/app/components/meshes/year-dodecagon.tsx:167 | An omitted height means height 0, where the separator is drawn; a given height places the dodecagon there and decides the separator by `height < 9` |
| YearDodecagon.LegendLabel | src/app/components/meshes/year-dodecagon.tsx:142 | The caption `${(index + 1).toString().padStart(2, '0')} : ${month}` ends with the month key after ` : `, and the part in front is all digits, reads back as `index + 1`, and is two characters below 10 and otherwise as long as the plain spelling |
| YearDodecagon.LegendTexts | src/app/components/meshes/year-dodecagon.tsx:131-144 | Mapping over the month keys gives one text per key, in key order; entry `i` is keyed by the `i`-th key, and its caption shows that same key and the 1-based position `i + 1`, padded to two digits |
| YearDodecagon.LegendCaption | src/app/components/meshes/year-dodecagon.tsx:142 | Legend entry `i` reads: tens digit of `i+1`, units digit of `i+1`, ` : `, then the `i`-th month key |
| YearDodecagon.LegendShape | src/app/components/meshes/year-dodecagon.tsx:131-143 | Entry `i` is keyed by the `i`-th month key; its caption has 8 characters, its first two read back as `i+1`, then ` : `, then the key |
| YearDodecagon.LegendDistinct | src/app/components/meshes/year-dodecagon.tsx:131-143 | No two legend entries share a key or a caption |
| YearDodecagon.LowerDecadePlinth | src/app/components/meshes/year-dodecagon.tsx:146-156 | The plinth group is at y = −1 and scale 0.5; its 12-segment distribution holds the 12 legend texts in order, every slot filled, at radius 2.43 |
| CanvasStore.Initial | src/context/canvas-context.tsx:15-18 | The provider starts with the current date selected (non-null), no day hovered and decade 2020 |
| CanvasStore.SetSelectedDate | src/context/canvas-context.tsx:16 | Sets the selected date to the given one and leaves the hovered flag and the decade unchanged |
| CanvasStore.SetDayHovered | src/context/canvas-context.tsx:17 | Sets the hovered flag and leaves the date and the decade unchanged |
| CanvasStore.SetCurrentDecade | src/context/canvas-context.tsx:18 | Sets the decade to any integer, with no range check, and leaves the other two fields unchanged |
| CanvasStore.LastWriterWins | src/context/canvas-context.tsx:21-29 | After any sequence of setter calls, each field holds the value of the last call to its own setter, or its old value if there was none |
| CanvasStore.SettersOverwriteAndCommute | src/context/canvas-context.tsx:16-18 | A second write to a field replaces the first entirely; writes to different fields commute |
| CanvasStore.UseCanvasContext | src/context/canvas-context.tsx:36-44 | The accessor fails, with the source's message, iff no provider is present, and otherwise returns the provider's value unchanged |

## Left out

- Rendering: GLTF meshes and materials, SVG backdrop curves, fonts, text
  anchoring, roughness and metalness, the π/2 rotations and the tile scale
  factors. A mesh is recorded only as its position and uniform scale.
- Tile placement inside a month group is left out: the offsets 0.105, the
  0.1 step and the 0.036 padding. It is floating-point layout with no
  discrete content.
- `UpperDecadePlinth` and the mesh components' internals: pure rendering.
- Decade stacking is not modelled. `DecadeGroup` is imported by `scene.tsx`
  but is not defined in the files this model covers.
- Radial.SlotCount: only integer `segments` are modelled. The source's
  `Array.from` would also truncate a fractional length and treat NaN as 0.
  It throws a `RangeError` for a length of 2^32 or more, or Infinity. The model
  instead returns that many slots; every call site passes 12 or the default.
- YearDodecagon.YearDodecagonSlice: a NaN height is not modelled. It would
  hide the separator, because `NaN < 9` is false.
- Text.Decimal: only plain decimal notation is modelled. JavaScript switches to
  exponent notation from 10^21 on, which no label here reaches.
- DaySquare.HoverLabel: the `day` prop is modelled as a non-negative integer,
  which is what the tile loop passes.
- The tile's call to `useCanvasContext` is not modelled separately. Its values
  are unused, because the global hover code is commented out. Its only effect
  is the missing-provider failure, which `CanvasStore.UseCanvasContext` models.
- React semantics are out of scope: re-rendering, `useMemo` caching and state
  batching. Handlers are modelled as running one at a time, in delivery order.
- Month groups carry no React key in the source; keys of groups are not modelled.
- The date panel's `parseInt` input handling, including NaN decades.
  `currentDecade` is an unbounded integer here.
- A `Date` is only its time value. The clock read `new Date()` becomes the
  `now` parameter of `CanvasStore.Initial`.
- Re-rendering of subscribers after a store change is not modelled: it is
  React's concern.

=== FILE: canvas_store.dfy ===
/**
 * `CanvasProvider` and `useCanvasContext`: the one piece of state shared by
 * the whole canvas. It is a flat record of three fields, each replaced
 * wholesale by its own setter, and an accessor that refuses to run outside
 * a provider.
 */
module CanvasStore {
  import opened Wrappers

  /** A JavaScript `Date`: only its time value (milliseconds since the epoch) matters here. */
  datatype Date = Date(timeValue: int)

  /** The context value: `selectedDate` (nullable), `dayHovered` and `currentDecade`. */
  datatype Store = Store(selectedDate: Option<Date>, dayHovered: bool, currentDecade: int)

  const InitialDecade: int := 2020

  /** The provider's initial state; `now` is the `new Date()` read from the clock when it mounts. */
  function Initial(now: Date): (s: Store)
    ensures s.selectedDate == Some(now)
    ensures !s.dayHovered
    ensures s.currentDecade == 2020
  {
    Store(Some(now), false, InitialDecade)
  }

  function SetSelectedDate(s: Store, d: Date): (t: Store)
    ensures t.selectedDate == Some(d)
    ensures t.dayHovered == s.dayHovered && t.currentDecade == s.currentDecade
  {
    s.(selectedDate := Some(d))
  }

  function SetDayHovered(s: Store, hovered: bool): (t: Store)
    ensures t.dayHovered == hovered
    ensures t.selectedDate == s.selectedDate && t.currentDecade == s.currentDecade
  {
    s.(dayHovered := hovered)
  }

  /** Any decade is accepted: there is no range or multiple-of-ten check. */
  function SetCurrentDecade(s: Store, decade: int): (t: Store)
    ensures t.currentDecade == decade
    ensures t.selectedDate == s.selectedDate && t.dayHovered == s.dayHovered
  {
    s.(currentDecade := decade)
  }

  /** A call to one of the three setters. */
  datatype Update = SelectDate(date: Date) | HoverDay(hovered: bool) | ChangeDecade(decade: int)

  function Apply(s: Store, u: Update): Store {
    match u
    case SelectDate(d) => SetSelectedDate(s, d)
    case HoverDay(b) => SetDayHovered(s, b)
    case ChangeDecade(n) => SetCurrentDecade(s, n)
  }

  /** The store after `updates`, applied in the order they were made. */
  function ApplyAll(s: Store, updates: seq<Update>): Store
    decreases |updates|
  {
    if |updates| == 0 then s else ApplyAll(Apply(s, updates[0]), updates[1..])
  }

  /** The decade set by the last `ChangeDecade` in `updates`, or `current` if there is none. */
  function LastDecade(updates: seq<Update>, current: int): int
    decreases |updates|
  {
    if |updates| == 0 then current
    else match updates[|updates| - 1]
      case ChangeDecade(n) => n
      case _ => LastDecade(updates[..|updates| - 1], current)
  }

  /** The date set by the last `SelectDate` in `updates`, or `current` if there is none. */
  function LastDate(updates: seq<Update>, current: Option<Date>): Option<Date>
    decreases |updates|
  {
    if |updates| == 0 then current
    else match updates[|updates| - 1]
      case SelectDate(d) => Some(d)
      case _ => LastDate(updates[..|updates| - 1], current)
  }

  /** The hovered flag set by the last `HoverDay` in `updates`, or `current` if there is none. */
  function LastHover(updates: seq<Update>, current: bool): bool
    decreases |updates|
  {
    if |updates| == 0 then current
    else match updates[|updates| - 1]
      case HoverDay(b) => b
      case _ => LastHover(updates[..|updates| - 1], current)
  }

  lemma {:induction false} LastCons(u: Update, rest: seq<Update>, s: Store)
    ensures LastDecade([u] + rest, s.currentDecade) == LastDecade(rest, Apply(s, u).currentDecade)
    ensures LastDate([u] + rest, s.selectedDate) == LastDate(rest, Apply(s, u).selectedDate)
    ensures LastHover([u] + rest, s.dayHovered) == LastHover(rest, Apply(s, u).dayHovered)
    decreases |rest|
  {
    if |rest| > 0 {
      var all := [u] + rest;
      assert all[..|all| - 1] == [u] + rest[..|rest| - 1];
      assert all[|all| - 1] == rest[|rest| - 1];
      LastCons(u, rest[..|rest| - 1], s);
    }
  }

  /**
   * Last writer wins, field by field: after any sequence of setter calls,
   * each field holds the value of the last call to its own setter, and is
   * untouched when there was none, whatever the other setters did.
   */
  lemma {:induction false} LastWriterWins(s: Store, updates: seq<Update>)
    ensures ApplyAll(s, updates).currentDecade == LastDecade(updates, s.currentDecade)
    ensures ApplyAll(s, updates).selectedDate == LastDate(updates, s.selectedDate)
    ensures ApplyAll(s, updates).dayHovered == LastHover(updates, s.dayHovered)
    decreases |updates|
  {
    if |updates| > 0 {
      assert updates == [updates[0]] + updates[1..];
      LastWriterWins(Apply(s, updates[0]), updates[1..]);
      LastCons(updates[0], updates[1..], s);
    }
  }

  /** A second write to the same field overwrites the first entirely; writes to different fields commute. */
  lemma SettersOverwriteAndCommute(s: Store, d1: Date, d2: Date, n1: int, n2: int, b: bool, b2: bool)
    ensures SetSelectedDate(SetSelectedDate(s, d1), d2) == SetSelectedDate(s, d2)
    ensures SetDayHovered(SetDayHovered(s, b), b2) == SetDayHovered(s, b2)
    ensures SetCurrentDecade(SetCurrentDecade(s, n1), n2) == SetCurrentDecade(s, n2)
    ensures SetSelectedDate(SetCurrentDecade(s, n1), d1) == SetCurrentDecade(SetSelectedDate(s, d1), n1)
    ensures SetDayHovered(SetCurrentDecade(s, n1), b) == SetCurrentDecade(SetDayHovered(s, b), n1)
    ensures SetDayHovered(SetSelectedDate(s, d1), b) == SetSelectedDate(SetDayHovered(s, b), d1)
  {
  }

  /** Where a component looks for the context: outside any provider, or under one holding a value. */
  datatype Provider = NoProvider | Provided(value: Store)

  const MissingProviderMessage: string := "useCanvasContext must be used within a CanvasProvider"

  /** The accessor: throws without a provider, otherwise hands back the provider's value as is. */
  function UseCanvasContext(p: Provider): (r: Result<Store>)
    ensures r.Err? <==> p.NoProvider?
    ensures r.Err? ==> r.message == MissingProviderMessage
    ensures r.Ok? ==> r.value == p.value
  {
    match p
    case NoProvider => Err(MissingProviderMessage)
    case Provided(v) => Ok(v)
  }
}

=== FILE: day_square.dfy ===
/**
 * `DaySquare` and `DaySquareMesh`: one interactive day tile. A tile is
 * identified by its `(day, week)` grid coordinates and keeps two local
 * flags, selected and hovered, that pointer events change. Its depth and
 * its colours are read off those two flags with one priority: selected,
 * then hovered, then regular. Its hover label depends on hovered alone.
 */
module DaySquare {
  import opened Wrappers
  import Text

  /** The `day` (column) and `week` (row) props of a tile. */
  datatype Tile = Tile(day: nat, week: nat)

  /**
   * `week * 7 + day`, the tile's running index, used in its group key. For a
   * day inside its week, dividing the index by seven gives the coordinates back.
   */
  function DayOfYear(t: Tile): (d: nat)
    ensures t.day < 7 ==> d / 7 == t.week && d % 7 == t.day
  {
    t.week * 7 + t.day
  }

  /** The key of the tile's outer group, `day-{dayOfYear}`: the digits after the prefix read back as the index. */
  function GroupKey(t: Tile): (k: string)
    ensures |k| > 4 && k[..4] == "day-"
    ensures Text.AllDigits(k[4..]) && Text.ParseDecimal(k[4..]) == DayOfYear(t)
  {
    Text.DecimalRoundTrip(DayOfYear(t));
    Text.Split("day-", Text.Decimal(DayOfYear(t)));
    "day-" + Text.Decimal(DayOfYear(t))
  }

  datatype TileState = TileState(selected: bool, hovered: bool)

  /** Both `useState` hooks start at `false`. */
  const Initial: TileState := TileState(false, false)

  datatype PointerEvent = Click | PointerEnter | PointerLeave

  /** The handlers: a click flips selected, enter and leave set hovered. */
  function Step(s: TileState, e: PointerEvent): (t: TileState)
    ensures e == Click ==> t.selected == !s.selected && t.hovered == s.hovered
    ensures e == PointerEnter ==> t.hovered && t.selected == s.selected
    ensures e == PointerLeave ==> !t.hovered && t.selected == s.selected
  {
    match e
    case Click => s.(selected := !s.selected)
    case PointerEnter => s.(hovered := true)
    case PointerLeave => s.(hovered := false)
  }

  /** The state after handling `events` in delivery order. */
  function Run(s: TileState, events: seq<PointerEvent>): TileState
    decreases |events|
  {
    if |events| == 0 then s else Run(Step(s, events[0]), events[1..])
  }

  /** The hovered flag the last enter or leave in `events` leaves behind (`h` if there is none). */
  function LastPointer(events: seq<PointerEvent>, h: bool): bool
    decreases |events|
  {
    if |events| == 0 then h
    else match events[|events| - 1]
      case PointerEnter => true
      case PointerLeave => false
      case Click => LastPointer(events[..|events| - 1], h)
  }

  lemma {:induction false} LastPointerCons(e: PointerEvent, rest: seq<PointerEvent>, h: bool)
    ensures LastPointer([e] + rest, h) == LastPointer(rest, Step(TileState(false, h), e).hovered)
    decreases |rest|
  {
    if |rest| > 0 {
      var all := [e] + rest;
      assert all[..|all| - 1] == [e] + rest[..|rest| - 1];
      assert all[|all| - 1] == rest[|rest| - 1];
      LastPointerCons(e, rest[..|rest| - 1], h);
    }
  }

  /**
   * Over any sequence of events, selected is flipped once per click (so it
   * ends up toggled iff the number of clicks is odd), and hovered is decided
   * by the last enter or leave alone.
   */
  lemma {:induction false} RunEffect(s: TileState, events: seq<PointerEvent>)
    ensures Run(s, events).selected == (s.selected != (multiset(events)[Click] % 2 == 1))
    ensures Run(s, events).hovered == LastPointer(events, s.hovered)
    decreases |events|
  {
    if |events| > 0 {
      var e := events[0];
      assert events == [e] + events[1..];
      assert multiset(events) == multiset{e} + multiset(events[1..]);
      RunEffect(Step(s, e), events[1..]);
      LastPointerCons(e, events[1..], s.hovered);
    }
  }

  /** A fresh tile is neither selected nor hovered; it is selected after an odd number of clicks. */
  lemma InitialThenClicks(n: nat)
    ensures !Initial.selected && !Initial.hovered
    ensures Run(Initial, seq(n, _ => Click)) == TileState(n % 2 == 1, false)
  {
    var clicks := seq(n, _ => Click);
    RunEffect(Initial, clicks);
    assert multiset(clicks)[Click] == n by {
      ClickCount(n);
    }
    NoPointerInClicks(n);
  }

  lemma {:induction false} ClickCount(n: nat)
    ensures multiset(seq(n, _ => Click))[Click] == n
  {
    if n > 0 {
      var clicks := seq(n, _ => Click);
      assert clicks == seq(n - 1, _ => Click) + [Click];
      ClickCount(n - 1);
    }
  }

  lemma {:induction false} NoPointerInClicks(n: nat)
    ensures LastPointer(seq(n, _ => Click), false) == false
  {
    if n > 0 {
      var clicks := seq(n, _ => Click);
      assert clicks[..n - 1] == seq(n - 1, _ => Click);
      NoPointerInClicks(n - 1);
    }
  }

  /** The three looks a tile can have, in increasing priority. */
  datatype Emphasis = Regular | Hovered | Selected

  /** Selected beats hovered, which beats regular. */
  function EmphasisOf(s: TileState): (e: Emphasis)
    ensures e == Selected <==> s.selected
    ensures e == Hovered <==> !s.selected && s.hovered
    ensures e == Regular <==> !s.selected && !s.hovered
  {
    if s.selected then Selected else if s.hovered then Hovered else Regular
  }

  /** `meshDepth`, the tile's z scale. */
  function MeshDepth(s: TileState): (d: real)
    ensures d == 0.4 <==> s.selected
    ensures d == 0.3 <==> !s.selected && s.hovered
    ensures d == 0.15 <==> !s.selected && !s.hovered
  {
    match EmphasisOf(s)
    case Selected => 0.4
    case Hovered => 0.3
    case Regular => 0.15
  }

  /** A selected tile stands out furthest whatever its hover state, and a hovered one more than a plain one. */
  lemma DepthPriority(h: bool)
    ensures MeshDepth(TileState(true, h)) == MeshDepth(TileState(true, !h))
    ensures MeshDepth(TileState(false, false)) < MeshDepth(TileState(false, true)) < MeshDepth(TileState(true, h))
  {
  }

  /** One colour per look, as in the `colors` table of `DaySquareMesh`. */
  datatype Palette = Palette(regular: string, selected: string, hovered: string)

  const OuterPalette: Palette := Palette("#00ffdd", "#eefffc", "#eefffc")
  const InnerPalette: Palette := Palette("#00d0b4", "#00d0b4", "#00d0b4")

  function Pick(p: Palette, s: TileState): (c: string)
    ensures c == p.selected || c == p.hovered || c == p.regular
  {
    match EmphasisOf(s)
    case Selected => p.selected
    case Hovered => p.hovered
    case Regular => p.regular
  }

  /** The outer shell is light whenever the tile is selected or hovered. */
  function OuterColor(s: TileState): (c: string)
    ensures c == "#eefffc" <==> s.selected || s.hovered
    ensures c == "#00ffdd" <==> !s.selected && !s.hovered
  {
    Pick(OuterPalette, s)
  }

  /** The inner core has the same colour in every state. */
  function InnerColor(s: TileState): (c: string)
    ensures c == "#00d0b4"
  {
    Pick(InnerPalette, s)
  }

  /** The label shown while hovered: `(day + 1)` padded to two digits; nothing otherwise. */
  function HoverLabel(t: Tile, s: TileState): (shown: Option<string>)
    ensures shown.Some? <==> s.hovered
    ensures shown.Some? ==> |shown.value| >= 2 && Text.AllDigits(shown.value)
    ensures shown.Some? ==> Text.ParseDecimal(shown.value) == t.day + 1
    ensures shown.Some? ==> |shown.value| == if t.day + 1 < 10 then 2 else |Text.Decimal(t.day + 1)|
  {
    if s.hovered then
      Text.TwoDigitRead(t.day + 1);
      Some(Text.TwoDigit(t.day + 1))
    else None
  }

  /** The label ignores the week: tiles in the same column of different rows show the same text. */
  lemma LabelIgnoresWeek(day: nat, w1: nat, w2: nat, s: TileState)
    ensures HoverLabel(Tile(day, w1), s) == HoverLabel(Tile(day, w2), s)
  {
  }

  /** For the seven columns of the grid the label is `01` to `07`. */
  lemma GridLabel(t: Tile, s: TileState)
    requires t.day < 7 && s.hovered
    ensures HoverLabel(t, s) == Some(['0', Text.DigitChar(t.day + 1)])
  {
    var l := Text.TwoDigit(t.day + 1);
    assert l == ['0', Text.DigitChar(t.day + 1)] by {
      Text.TwoDigitSpelling(t.day + 1);
      assert (t.day + 1) / 10 == 0 && (t.day + 1) % 10 == t.day + 1;
    }
    assert HoverLabel(t, s) == Some(l);
  }
}

=== FILE: radial.dfy ===
/**
 * `RadialDistribution`: places sibling elements evenly around the vertical
 * axis. Slot `i` is a group turned by `i/segments` of a full revolution,
 * sharing the outer position, with an inner group pushed out by `radius`
 * along its own x axis and holding `elements[i]`.
 *
 * Angles are kept as exact fractions of a full turn (the source multiplies
 * by 2π in floating point); positions and radii are exact reals.
 */
module Radial {
  import opened Wrappers

  datatype Vec3 = Vec3(x: real, y: real, z: real)

  /**
   * One rendered slot: the React `key`, the rotation about the vertical axis
   * as a fraction of a full turn, the outer group's position, the inner
   * group's distance along x, and the element it holds (absent when the
   * elements array has no entry at that index).
   */
  datatype Slot<T> = Slot(key: nat, turn: real, position: Vec3, distance: real, content: Option<T>)

  const DefaultSegments: int := 12
  const DefaultRadius: real := 1.0

  /** `Array.from({ length: segments })` has this many entries: a negative length becomes 0. */
  function SlotCount(segments: int): (n: nat)
    ensures segments >= 0 ==> n == segments
    ensures segments < 0 ==> n == 0
  {
    if segments < 0 then 0 else segments
  }

  /** `elements[i]`: out-of-range indexing yields `undefined`, which renders nothing. */
  function ElementAt<T>(elements: seq<T>, i: nat): (r: Option<T>)
    ensures r.Some? <==> i < |elements|
    ensures r.Some? ==> r.value == elements[i]
  {
    if i < |elements| then Some(elements[i]) else None
  }

  /** Slots `i .. segments-1`, built in index order as the `map` callback visits them. */
  function SlotsFrom<T>(i: nat, segments: int, radius: real, position: Vec3, elements: seq<T>): (slots: seq<Slot<T>>)
    requires i <= SlotCount(segments)
    ensures |slots| == SlotCount(segments) - i
    ensures forall k :: 0 <= k < |slots| ==> slots[k].key == i + k
    ensures forall k :: 0 <= k < |slots| ==> slots[k].turn == (i + k) as real / segments as real
    ensures forall k :: 0 <= k < |slots| ==> slots[k].position == position && slots[k].distance == radius
    ensures forall k :: 0 <= k < |slots| ==> slots[k].content == ElementAt(elements, i + k)
    decreases SlotCount(segments) - i
  {
    if i == SlotCount(segments) then []
    else [Slot(i, i as real / segments as real, position, radius, ElementAt(elements, i))]
         + SlotsFrom(i + 1, segments, radius, position, elements)
  }

  /** The distribution with every argument supplied. */
  function Distribute<T>(segments: int, radius: real, position: Vec3, elements: seq<T>): (slots: seq<Slot<T>>)
    ensures |slots| == SlotCount(segments)
    ensures forall i :: 0 <= i < |slots| ==> slots[i].key == i
    ensures forall i :: 0 <= i < |slots| ==> slots[i].turn == i as real / segments as real
    ensures forall i :: 0 <= i < |slots| ==> slots[i].position == position && slots[i].distance == radius
    ensures forall i :: 0 <= i < |slots| ==> slots[i].content == ElementAt(elements, i)
  {
    SlotsFrom(0, segments, radius, position, elements)
  }

  /** The component itself: an omitted `segments` is 12 and an omitted `radius` is 1. */
  function RadialDistribution<T>(segments: Option<int>, radius: Option<real>, position: Vec3, elements: seq<T>): (slots: seq<Slot<T>>)
    ensures segments.None? ==> |slots| == 12
    ensures segments.Some? ==> |slots| == SlotCount(segments.value)
    ensures radius.None? ==> forall i :: 0 <= i < |slots| ==> slots[i].distance == 1.0
    ensures radius.Some? ==> forall i :: 0 <= i < |slots| ==> slots[i].distance == radius.value
  {
    Distribute(segments.GetOr(DefaultSegments), radius.GetOr(DefaultRadius), position, elements)
  }

  /** What the slots hold, in slot order. */
  function Contents<T>(slots: seq<Slot<T>>): (r: seq<Option<T>>)
    ensures |r| == |slots|
    ensures forall i :: 0 <= i < |r| ==> r[i] == slots[i].content
  {
    seq(|slots|, i requires 0 <= i < |slots| => slots[i].content)
  }

  lemma QuotientLess(a: nat, b: nat, n: nat)
    requires a < b && n > 0
    ensures a as real / n as real < b as real / n as real
  {
    var r := 1.0 / n as real;
    assert a as real / n as real == a as real * r;
    assert b as real / n as real == b as real * r;
  }

  lemma QuotientStep(a: nat, n: nat)
    requires n > 0
    ensures (a + 1) as real / n as real - a as real / n as real == 1.0 / n as real
  {
    var r := 1.0 / n as real;
    assert a as real / n as real == a as real * r;
    assert (a + 1) as real / n as real == (a + 1) as real * r;
  }

  /** The last of `n` equal steps ends one step short of a full turn. */
  lemma FullTurnGap(n: nat)
    requires n > 0
    ensures 1.0 - (n - 1) as real / n as real == 1.0 / n as real
  {
    QuotientStep(n - 1, n);
    assert n as real / n as real == 1.0;
  }

  /** Slot 0 is unrotated. */
  lemma FirstTurnIsZero<T>(segments: int, radius: real, position: Vec3, elements: seq<T>)
    requires segments > 0
    ensures Distribute(segments, radius, position, elements)[0].turn == 0.0
  {
  }

  /** The turns strictly increase with the slot index and stay within one revolution. */
  lemma TurnsIncreaseBelowFullTurn<T>(segments: int, radius: real, position: Vec3, elements: seq<T>)
    ensures var slots := Distribute(segments, radius, position, elements);
      && (forall i, j :: 0 <= i < j < |slots| ==> slots[i].turn < slots[j].turn)
      && (forall i :: 0 <= i < |slots| ==> 0.0 <= slots[i].turn < 1.0)
  {
    var slots := Distribute(segments, radius, position, elements);
    forall i, j | 0 <= i < j < |slots|
      ensures slots[i].turn < slots[j].turn
    {
      QuotientLess(i, j, segments);
    }
    forall i | 0 <= i < |slots|
      ensures 0.0 <= slots[i].turn < 1.0
    {
      QuotientLess(i, segments, segments);
      assert segments as real / segments as real == 1.0;
    }
  }

  /**
   * Neighbouring slots are exactly `1/segments` of a turn apart, and so are
   * the last slot and the first one, across the full revolution: the slots
   * divide the circle evenly with no gap and no overlap.
   */
  lemma TurnsEvenlySpaced<T>(segments: int, radius: real, position: Vec3, elements: seq<T>)
    requires segments > 0
    ensures var slots := Distribute(segments, radius, position, elements);
      && (forall i :: 0 <= i < |slots| - 1 ==> slots[i + 1].turn - slots[i].turn == 1.0 / segments as real)
      && 1.0 - slots[|slots| - 1].turn == 1.0 / segments as real
  {
    var slots := Distribute(segments, radius, position, elements);
    forall i | 0 <= i < |slots| - 1
      ensures slots[i + 1].turn - slots[i].turn == 1.0 / segments as real
    {
      QuotientStep(i, segments);
    }
    assert slots[|slots| - 1].turn == (segments - 1) as real / segments as real;
    FullTurnGap(segments);
  }

  /**
   * With exactly `segments` elements every slot is filled, in order, and no
   * element is dropped; with more, the surplus (index `>= segments`) is never
   * placed; with fewer, the trailing slots stay empty.
   */
  lemma PlacementOfElements<T>(segments: int, radius: real, position: Vec3, elements: seq<T>)
    ensures var slots := Distribute(segments, radius, position, elements);
      && (|elements| == SlotCount(segments) ==> Contents(slots) == seq(|elements|, i requires 0 <= i < |elements| => Some(elements[i])))
      && (|elements| >= SlotCount(segments) ==> forall i :: 0 <= i < |slots| ==> slots[i].content == Some(elements[i]))
      && (forall i :: 0 <= i < |slots| && slots[i].content.Some? ==> i < |elements| && slots[i].content.value == elements[slots[i].key])
      && (forall i :: |elements| <= i < |slots| ==> slots[i].content.None?)
  {
  }

  /** With at least one element per slot, slot `i` holds element `i`. */
  lemma PlacedInOrder<T>(segments: int, radius: real, position: Vec3, elements: seq<T>)
    requires |elements| >= SlotCount(segments)
    ensures var slots := Distribute(segments, radius, position, elements);
      forall i :: 0 <= i < |slots| ==> slots[i].content == Some(elements[i])
  {
    var slots := Distribute(segments, radius, position, elements);
    forall i | 0 <= i < |slots|
      ensures slots[i].content == Some(elements[i])
    {
      assert slots[i].content == ElementAt(elements, i);
    }
  }

  /** When every element is the same `x` and there is one per slot, every slot holds `x`. */
  lemma FilledWith<T>(segments: int, radius: real, position: Vec3, elements: seq<T>, x: T)
    requires |elements| == SlotCount(segments)
    requires forall i :: 0 <= i < |elements| ==> elements[i] == x
    ensures var slots := Distribute(segments, radius, position, elements);
      forall i :: 0 <= i < |slots| ==> slots[i].content == Some(x)
  {
    PlacedInOrder(segments, radius, position, elements);
  }
}

=== FILE: text.dfy ===
/**
 * The two string operations the labels are built from: JavaScript's
 * `Number.prototype.toString()` on a non-negative integer (plain decimal
 * notation) and `String.prototype.padStart` with a one-character fill.
 */
module Text {

  predicate IsDigit(c: char) {
    '0' <= c <= '9'
  }

  predicate AllDigits(s: string) {
    forall i :: 0 <= i < |s| ==> IsDigit(s[i])
  }

  function DigitChar(d: nat): (c: char)
    requires d < 10
    ensures IsDigit(c)
  {
    "0123456789"[d]
  }

  function DigitValue(c: char): (d: nat)
    requires IsDigit(c)
    ensures d < 10
  {
    c as int - '0' as int
  }

  lemma DigitRoundTrip(d: nat)
    requires d < 10
    ensures DigitValue(DigitChar(d)) == d
  {
  }

  /** Shortest decimal spelling of `n`, most significant digit first. */
  function Decimal(n: nat): (s: string)
    ensures |s| > 0 && AllDigits(s)
    ensures |s| == 1 <==> n < 10
    ensures |s| > 1 ==> s[0] != '0'
  {
    if n < 10 then [DigitChar(n)] else Decimal(n / 10) + [DigitChar(n % 10)]
  }

  /** Reads a string of decimal digits back as a number (leading zeros allowed). */
  function ParseDecimal(s: string): nat
    requires AllDigits(s)
  {
    if |s| == 0 then 0 else ParseDecimal(s[..|s| - 1]) * 10 + DigitValue(s[|s| - 1])
  }

  /** Reading back what `Decimal` spells gives the number: the spelling loses nothing. */
  lemma {:induction false} DecimalRoundTrip(n: nat)
    ensures ParseDecimal(Decimal(n)) == n
  {
    var s := Decimal(n);
    DigitRoundTrip(n % 10);
    if n < 10 {
      assert s[..0] == [];
    } else {
      DecimalRoundTrip(n / 10);
      assert s[..|s| - 1] == Decimal(n / 10);
    }
  }

  lemma DecimalInjective(a: nat, b: nat)
    ensures Decimal(a) == Decimal(b) <==> a == b
  {
    if Decimal(a) == Decimal(b) {
      DecimalRoundTrip(a);
      DecimalRoundTrip(b);
    }
  }

  /**
   * Left-pads `s` with `fill` up to `width` characters; a string already
   * that long is returned unchanged (never truncated).
   */
  function PadStart(s: string, width: nat, fill: char): (r: string)
    ensures |r| == if |s| >= width then |s| else width
    ensures r[|r| - |s|..] == s
    ensures forall i :: 0 <= i < |r| - |s| ==> r[i] == fill
  {
    if |s| >= width then s else seq(width - |s|, _ => fill) + s
  }

  /** `n.toString().padStart(2, '0')`, the form of every two-digit label. */
  function TwoDigit(n: nat): string {
    PadStart(Decimal(n), 2, '0')
  }

  /** A concatenation sliced at the seam gives back its two parts. */
  lemma Split<T>(p: seq<T>, s: seq<T>)
    ensures (p + s)[..|p|] == p && (p + s)[|p|..] == s
  {
  }

  /** Zeros in front of a digit string do not change the number it reads as. */
  lemma {:induction false} LeadingZerosRead(s: string, k: nat)
    requires k <= |s|
    requires forall i :: 0 <= i < k ==> s[i] == '0'
    requires AllDigits(s[k..])
    ensures AllDigits(s) && ParseDecimal(s) == ParseDecimal(s[k..])
    decreases |s|
  {
    if k < |s| {
      var s' := s[..|s| - 1];
      assert s'[k..] == s[k..][..|s[k..]| - 1];
      LeadingZerosRead(s', k);
    } else {
      AllZeros(s);
      assert s[k..] == [];
    }
  }

  lemma {:induction false} AllZeros(s: string)
    requires forall i :: 0 <= i < |s| ==> s[i] == '0'
    ensures AllDigits(s) && ParseDecimal(s) == 0
    decreases |s|
  {
    if |s| > 0 {
      AllZeros(s[..|s| - 1]);
    }
  }

  /**
   * The padded label has exactly two characters below 10 and is the plain
   * spelling otherwise (no extra zeros); either way it is all digits and
   * reads back as `n`.
   */
  lemma TwoDigitRead(n: nat)
    ensures |TwoDigit(n)| == if n < 10 then 2 else |Decimal(n)|
    ensures AllDigits(TwoDigit(n)) && ParseDecimal(TwoDigit(n)) == n
  {
    var d := Decimal(n);
    var l := TwoDigit(n);
    assert l[|l| - |d|..] == d;
    LeadingZerosRead(l, |l| - |d|);
    DecimalRoundTrip(n);
  }

  /** Below 100 the label is exactly two digits, tens then units, and reads back as `n`. */
  lemma TwoDigitSpelling(n: nat)
    requires n < 100
    ensures TwoDigit(n) == [DigitChar(n / 10), DigitChar(n % 10)]
    ensures AllDigits(TwoDigit(n)) && ParseDecimal(TwoDigit(n)) == n
  {
    DigitRoundTrip(n / 10);
    DigitRoundTrip(n % 10);
    var t := TwoDigit(n);
    if n < 10 {
      assert t == ['0'] + [DigitChar(n)];
    } else {
      assert Decimal(n / 10) == [DigitChar(n / 10)];
    }
    assert t[..1] == [t[0]];
    assert t[..1][..0] == [];
  }
}

=== FILE: wrappers.dfy ===
/** Option and Result helper datatypes shared by the other modules. */
module Wrappers {

  /** A value that may be absent: JavaScript's `undefined` / `null` slots. */
  datatype Option<+T> = None | Some(value: T) {

    /** The wrapped value, or `default` when absent (a defaulted parameter). */
    function GetOr(default: T): (r: T)
      ensures Some? ==> r == value
      ensures None? ==> r == default
    {
      match this
      case Some(v) => v
      case None => default
    }
  }

  /** Either a value or the message of a thrown `Error`. */
  datatype Result<+T> = Ok(value: T) | Err(message: string)
}

=== FILE: year_dodecagon.dfy ===
/**
 * `YearDodecagonSlice` and `LowerDecadePlinth`: one year of the calendar
 * tower and the month legend under it.
 *
 * There is no calendar arithmetic here. Every month of every year gets the
 * same fixed 31-tile grid: weeks 0 to 3 hold seven days each and week 4
 * holds three, whatever the month, the year or the decade.
 */
module YearDodecagon {
  import opened Wrappers
  import Text
  import opened Radial
  import opened DaySquare

  datatype Month = JAN | FEB | MAR | APR | MAY | JUN | JUL | AUG | SEP | OCT | NOV | DEC

  /** The enum in declaration order, the order `Object.keys` and `Object.values` list it in. */
  const Months: seq<Month> := [JAN, FEB, MAR, APR, MAY, JUN, JUL, AUG, SEP, OCT, NOV, DEC]

  /** The enum member's name, listed by `Object.keys(Month)`: three capital letters, not its string value. */
  function Key(m: Month): (k: string)
    ensures |k| == 3 && forall i :: 0 <= i < |k| ==> 'A' <= k[i] <= 'Z'
  {
    match m
    case JAN => "JAN" case FEB => "FEB" case MAR => "MAR" case APR => "APR"
    case MAY => "MAY" case JUN => "JUN" case JUL => "JUL" case AUG => "AUG"
    case SEP => "SEP" case OCT => "OCT" case NOV => "NOV" case DEC => "DEC"
  }

  /** Twelve months, each once, with distinct keys. */
  lemma MonthsEnumerated()
    ensures |Months| == 12
    ensures forall m: Month :: m in Months
    ensures forall i, j :: 0 <= i < j < |Months| ==> Months[i] != Months[j]
    ensures forall i, j :: 0 <= i < j < |Months| ==> Key(Months[i]) != Key(Months[j])
  {
    forall m: Month
      ensures m in Months
    {
      match m
      case JAN => assert Months[0] == m;
      case FEB => assert Months[1] == m;
      case MAR => assert Months[2] == m;
      case APR => assert Months[3] == m;
      case MAY => assert Months[4] == m;
      case JUN => assert Months[5] == m;
      case JUL => assert Months[6] == m;
      case AUG => assert Months[7] == m;
      case SEP => assert Months[8] == m;
      case OCT => assert Months[9] == m;
      case NOV => assert Months[10] == m;
      case DEC => assert Months[11] == m;
    }
  }

  // ---------------------------------------------------------------------
  // The day-tile grid
  // ---------------------------------------------------------------------

  /** Rows of the grid: the outer loop runs `week` from 0 while `week < 5`. */
  const WeekCount: nat := 5

  /** `lastWeekDays`: the inner loop's bound, 3 for the last week and 7 otherwise. */
  function DaysInWeek(week: nat): nat {
    if week > 3 then 3 else 7
  }

  /** The tiles the loops can emit. */
  predicate InGrid(t: Tile) {
    t.week < WeekCount && t.day < DaysInWeek(t.week)
  }

  /** Closed form of the loops: the `i`-th emitted tile is column `i % 7` of row `i / 7`. */
  function TileAt(i: nat): Tile {
    Tile(i % 7, i / 7)
  }

  /** The inner loop: days `day ..` of one week. */
  function RowFrom(week: nat, day: nat): (row: seq<Tile>)
    requires day <= DaysInWeek(week)
    ensures |row| == DaysInWeek(week) - day
    ensures forall k :: 0 <= k < |row| ==> row[k] == Tile(day + k, week)
    decreases DaysInWeek(week) - day
  {
    if day == DaysInWeek(week) then [] else [Tile(day, week)] + RowFrom(week, day + 1)
  }

  /** The outer loop: weeks `week ..` of the grid, each row pushed after the previous one. */
  function WeeksFrom(week: nat): (tiles: seq<Tile>)
    requires week <= WeekCount
    ensures |tiles| == if week == WeekCount then 0 else 31 - 7 * week
    ensures forall k :: 0 <= k < |tiles| ==> tiles[k] == TileAt(7 * week + k)
    decreases WeekCount - week
  {
    if week == WeekCount then []
    else
      RowTiles(week);
      JoinRows(week, RowFrom(week, 0), WeeksFrom(week + 1));
      RowFrom(week, 0) + WeeksFrom(week + 1)
  }

  /** A full row followed by the tiles numbered from the next row on continues the numbering. */
  lemma JoinRows(week: nat, row: seq<Tile>, rest: seq<Tile>)
    requires week < WeekCount && |row| == DaysInWeek(week)
    requires |rest| == if week + 1 == WeekCount then 0 else 31 - 7 * (week + 1)
    requires forall k :: 0 <= k < |row| ==> row[k] == TileAt(7 * week + k)
    requires forall k :: 0 <= k < |rest| ==> rest[k] == TileAt(7 * (week + 1) + k)
    ensures forall k :: 0 <= k < |row + rest| ==> (row + rest)[k] == TileAt(7 * week + k)
  {
    forall k | 0 <= k < |row + rest|
      ensures (row + rest)[k] == TileAt(7 * week + k)
    {
      if k >= |row| {
        assert (row + rest)[k] == rest[k - 7];
      }
    }
  }

  /** Row `week` holds the tiles numbered `7 * week` onward, in order. */
  lemma RowTiles(week: nat)
    requires week < WeekCount
    ensures forall k :: 0 <= k < |RowFrom(week, 0)| ==> RowFrom(week, 0)[k] == TileAt(7 * week + k)
  {
    forall k | 0 <= k < |RowFrom(week, 0)|
      ensures RowFrom(week, 0)[k] == TileAt(7 * week + k)
    {
      assert (7 * week + k) / 7 == week && (7 * week + k) % 7 == k by {
        match week
        case 0 => case 1 => case 2 => case 3 => case 4 =>
      }
    }
  }

  /** `dayElements`, as (day, week) props in push order. */
  function DayTiles(): (tiles: seq<Tile>)
    ensures |tiles| == 31
    ensures forall i :: 0 <= i < |tiles| ==> tiles[i] == TileAt(i)
  {
    WeeksFrom(0)
  }

  /** A tile is emitted iff it lies in the grid: every emitted pair is in range, and no grid cell is missed. */
  lemma GridContents(t: Tile)
    ensures t in DayTiles() <==> InGrid(t)
  {
    var tiles := DayTiles();
    if t in tiles {
      var i :| 0 <= i < |tiles| && tiles[i] == t;
      EmittedInGrid(i);
    }
    if InGrid(t) {
      GridCellEmitted(t);
      assert tiles[7 * t.week + t.day] == t;
    }
  }

  lemma EmittedInGrid(i: nat)
    requires i < 31
    ensures InGrid(TileAt(i))
  {
    if i < 7 {} else if i < 14 {} else if i < 21 {} else if i < 28 {} else {}
  }

  lemma GridCellEmitted(t: Tile)
    requires InGrid(t)
    ensures 7 * t.week + t.day < 31 && TileAt(7 * t.week + t.day) == t
  {
    match t.week
    case 0 => case 1 => case 2 => case 3 => case 4 =>
  }

  /** `a` comes before `b` in week-major, day-minor order. */
  predicate Before(a: Tile, b: Tile) {
    a.week < b.week || (a.week == b.week && a.day < b.day)
  }

  /** The tiles are emitted row by row, left to right; in particular no tile is emitted twice. */
  lemma WeekMajorOrder()
    ensures forall i, j :: 0 <= i < j < |DayTiles()| ==> Before(DayTiles()[i], DayTiles()[j])
    ensures forall i, j :: 0 <= i < j < |DayTiles()| ==> DayTiles()[i] != DayTiles()[j]
  {
  }

  /** The tiles of `tiles` lying in row `week`, in order. */
  function InWeek(tiles: seq<Tile>, week: nat): (r: seq<Tile>)
    ensures |r| <= |tiles|
    ensures forall i :: 0 <= i < |r| ==> r[i].week == week
  {
    if |tiles| == 0 then []
    else (if tiles[0].week == week then [tiles[0]] else []) + InWeek(tiles[1..], week)
  }

  lemma {:induction false} InWeekConcat(a: seq<Tile>, b: seq<Tile>, week: nat)
    ensures InWeek(a + b, week) == InWeek(a, week) + InWeek(b, week)
    decreases |a|
  {
    if |a| == 0 {
      assert a + b == b;
    } else {
      assert (a + b)[0] == a[0];
      assert (a + b)[1..] == a[1..] + b;
      InWeekConcat(a[1..], b, week);
    }
  }

  lemma {:induction false} InWeekRow(row: nat, day: nat, week: nat)
    requires day <= DaysInWeek(row)
    ensures InWeek(RowFrom(row, day), week) == if row == week then RowFrom(row, day) else []
    decreases DaysInWeek(row) - day
  {
    if day < DaysInWeek(row) {
      var r := RowFrom(row, day);
      assert r[1..] == RowFrom(row, day + 1);
      InWeekRow(row, day + 1, week);
    }
  }

  /** A whole row contributes all its days to its own week and none to any other. */
  lemma InWeekRowCount(row: nat, week: nat)
    ensures |InWeek(RowFrom(row, 0), week)| == if row == week then DaysInWeek(row) else 0
  {
    InWeekRow(row, 0, week);
  }

  /** One step of the outer loop: the tiles of `week` among weeks `from..` are those of row `from` plus the rest. */
  lemma InWeekStep(from: nat, week: nat)
    requires from < WeekCount
    ensures |InWeek(WeeksFrom(from), week)| == |InWeek(RowFrom(from, 0), week)| + |InWeek(WeeksFrom(from + 1), week)|
  {
    assert WeeksFrom(from) == RowFrom(from, 0) + WeeksFrom(from + 1);
    InWeekConcat(RowFrom(from, 0), WeeksFrom(from + 1), week);
  }

  lemma {:induction false} InWeekFrom(from: nat, week: nat)
    requires from <= WeekCount
    ensures |InWeek(WeeksFrom(from), week)| == if from <= week < WeekCount then DaysInWeek(week) else 0
    decreases WeekCount - from
  {
    if from < WeekCount {
      InWeekStep(from, week);
      InWeekRowCount(from, week);
      InWeekFrom(from + 1, week);
    } else {
      assert WeeksFrom(from) == [];
    }
  }

  /** Weeks 0 to 3 get seven tiles each and week 4 gets three: 31 in all. */
  lemma TilesPerWeek(week: nat)
    ensures |InWeek(DayTiles(), week)| == if week < 4 then 7 else if week == 4 then 3 else 0
  {
    InWeekFrom(0, week);
  }

  /** `dayOfYear` numbers the emitted tiles 0 to 30 in emission order: injective, and onto exactly that range. */
  lemma DayOfYearNumbering()
    ensures forall i :: 0 <= i < |DayTiles()| ==> DayOfYear(DayTiles()[i]) == i
    ensures forall a, b :: a in DayTiles() && b in DayTiles() && DayOfYear(a) == DayOfYear(b) ==> a == b
    ensures forall t :: t in DayTiles() ==> DayOfYear(t) < 31
  {
  }

  /**
   * Key `k` reads, left to right, as the coordinates `(day, week)`: after
   * `day-`, the run of digits reads as the day, then comes `-week-`, and the
   * rest reads as the week.
   */
  predicate ReadsAs(k: string, day: nat, week: nat) {
    && |k| > 4 && k[..4] == "day-"
    && var n := DigitRun(k[4..]);
      && 10 + n <= |k|
      && Text.AllDigits(k[4..4 + n]) && Text.ParseDecimal(k[4..4 + n]) == day
      && k[4 + n..10 + n] == "-week-"
      && Text.AllDigits(k[10 + n..]) && Text.ParseDecimal(k[10 + n..]) == week
  }

  /** The React key of a tile element, `day-{day}-week-{week}`; it reads back as the tile's coordinates. */
  function TileKey(t: Tile): (k: string)
    ensures ReadsAs(k, t.day, t.week)
  {
    KeyReads(t.day, t.week);
    "day-" + Text.Decimal(t.day) + "-week-" + Text.Decimal(t.week)
  }

  /** `day-{a}-week-{b}` read back: its digit runs spell `a` and `b`. */
  lemma KeyReads(a: nat, b: nat)
    ensures ReadsAs("day-" + Text.Decimal(a) + "-week-" + Text.Decimal(b), a, b)
  {
    KeyParts(Text.Decimal(a), Text.Decimal(b));
    Text.DecimalRoundTrip(a);
    Text.DecimalRoundTrip(b);
  }

  /** Slicing `day-{da}-week-{db}` at the end of the digit run after `day-` gives back `da` and `db`. */
  lemma KeyParts(da: string, db: string)
    requires Text.AllDigits(da)
    ensures var k := "day-" + da + "-week-" + db;
      var n := DigitRun(k[4..]);
      && |k| > 4 && k[..4] == "day-"
      && n == |da| && 10 + n <= |k|
      && k[4..4 + n] == da && k[4 + n..10 + n] == "-week-" && k[10 + n..] == db
  {
    var x := "-week-" + db;
    var k := "day-" + da + "-week-" + db;
    assert k == "day-" + (da + x);
    var r := k[4..];
    assert r == da + x && k[..4] == "day-" by { Text.Split("day-", da + x); }
    DigitRunOf(da, x);
    var n := |da|;
    assert k[4..4 + n] == r[..n] == da && k[4 + n..] == r[n..] == x by { Text.Split(da, x); }
    assert k[4 + n..10 + n] == x[..6] == "-week-" && k[10 + n..] == x[6..] == db by { Text.Split("-week-", db); }
  }

  /** The number of leading digit characters of `s`. */
  function DigitRun(s: string): (n: nat)
    ensures n <= |s|
  {
    if |s| == 0 || !Text.IsDigit(s[0]) then 0 else 1 + DigitRun(s[1..])
  }

  lemma {:induction false} DigitRunOf(a: string, x: string)
    requires Text.AllDigits(a) && |x| > 0 && !Text.IsDigit(x[0])
    ensures DigitRun(a + x) == |a|
    decreases |a|
  {
    if |a| == 0 {
      assert a + x == x;
    } else {
      assert (a + x)[1..] == a[1..] + x;
      DigitRunOf(a[1..], x);
    }
  }

  /** Distinct tiles have distinct keys. */
  lemma TileKeyInjective(a: Tile, b: Tile)
    ensures TileKey(a) == TileKey(b) <==> a == b
  {
    if TileKey(a) == TileKey(b) {
      ReadsOnce(TileKey(a), a.day, a.week, b.day, b.week);
    }
  }

  /** A key reads as one pair of coordinates only. */
  lemma ReadsOnce(k: string, d1: nat, w1: nat, d2: nat, w2: nat)
    requires ReadsAs(k, d1, w1) && ReadsAs(k, d2, w2)
    ensures d1 == d2 && w1 == w2
  {
  }

  /** The 31 tile keys, and the 31 inner group keys `day-{dayOfYear}`, are pairwise distinct. */
  lemma KeysDistinct()
    ensures forall i, j :: 0 <= i < j < |DayTiles()| ==> TileKey(DayTiles()[i]) != TileKey(DayTiles()[j])
    ensures forall i, j :: 0 <= i < j < |DayTiles()| ==> GroupKey(DayTiles()[i]) != GroupKey(DayTiles()[j])
  {
    var tiles := DayTiles();
    forall i, j | 0 <= i < j < |tiles|
      ensures TileKey(tiles[i]) != TileKey(tiles[j])
      ensures GroupKey(tiles[i]) != GroupKey(tiles[j])
    {
      TileKeyInjective(tiles[i], tiles[j]);
      Text.DecimalInjective(DayOfYear(tiles[i]), DayOfYear(tiles[j]));
      assert GroupKey(tiles[i])[4..] == Text.Decimal(DayOfYear(tiles[i]));
      assert GroupKey(tiles[j])[4..] == Text.Decimal(DayOfYear(tiles[j]));
    }
  }

  // ---------------------------------------------------------------------
  // Month groups and the slice
  // ---------------------------------------------------------------------

  /** The backdrop curve every month group draws behind its tiles. */
  const MonthGridCurve: string := "./media/curves/month_grid.svg"

  /** A month group: its position, its backdrop curve and its tile elements. */
  datatype MonthGroup = MonthGroup(position: Vec3, backdrop: string, tiles: seq<Tile>)

  const MonthGroupPosition: Vec3 := Vec3(0.0, 0.0, 0.51)

  /** The `forEach` over the month values: one group per month, each holding the same tiles. */
  function MonthGroupsFor(months: seq<Month>, tiles: seq<Tile>): (groups: seq<MonthGroup>)
    ensures |groups| == |months|
    ensures forall i :: 0 <= i < |groups| ==> groups[i] == MonthGroup(MonthGroupPosition, MonthGridCurve, tiles)
  {
    if |months| == 0 then []
    else [MonthGroup(MonthGroupPosition, MonthGridCurve, tiles)] + MonthGroupsFor(months[1..], tiles)
  }

  /** A placed mesh: its position and uniform scale. */
  datatype Mesh = Mesh(position: Vec3, scale: real)

  /** What one year slice renders: the dodecagon, the separator if any, and twelve month slots. */
  datatype SliceScene = SliceScene(dodecagon: Mesh, separator: Option<Mesh>, months: seq<Slot<MonthGroup>>)

  const SliceOffset: real := 0.12
  const SliceRadius: real := 2.43
  const SliceSegments: int := 12

  /** The month groups of a slice at height `h`, spread over twelve segments and raised by `offset`. */
  function MonthSlots(h: real, tiles: seq<Tile>): seq<Slot<MonthGroup>> {
    Distribute(SliceSegments, SliceRadius, Vec3(0.0, h + SliceOffset, 0.0), MonthGroupsFor(Months, tiles))
  }

  /**
   * Twelve groups go into twelve segments: every slot is filled, none is
   * dropped, and every slot holds the same tile list at the same height and
   * distance.
   */
  lemma MonthSlotsFilled(h: real, tiles: seq<Tile>)
    ensures |MonthSlots(h, tiles)| == |Months| == 12
    ensures forall i :: 0 <= i < |MonthSlots(h, tiles)| ==>
      MonthSlots(h, tiles)[i].content == Some(MonthGroup(MonthGroupPosition, MonthGridCurve, tiles))
    ensures forall i :: 0 <= i < |MonthSlots(h, tiles)| ==>
      MonthSlots(h, tiles)[i].position == Vec3(0.0, h + SliceOffset, 0.0) && MonthSlots(h, tiles)[i].distance == SliceRadius
  {
    var groups := MonthGroupsFor(Months, tiles);
    FilledWith(SliceSegments, SliceRadius, Vec3(0.0, h + SliceOffset, 0.0), groups,
      MonthGroup(MonthGroupPosition, MonthGridCurve, tiles));
  }

  /** One year slice at height `h`: the dodecagon always, the separator only below height 9. */
  function SliceAt(h: real): (scene: SliceScene)
    ensures scene.dodecagon == Mesh(Vec3(0.0, h, 0.0), 0.5)
    ensures scene.separator.Some? <==> h < 9.0
    ensures scene.separator.Some? ==> scene.separator.value == Mesh(Vec3(0.0, h, 0.0), 0.5)
    ensures |scene.months| == 12
    ensures forall i :: 0 <= i < |scene.months| ==>
      scene.months[i].content == Some(MonthGroup(MonthGroupPosition, MonthGridCurve, DayTiles()))
  {
    MonthSlotsFilled(h, DayTiles());
    SliceScene(
      Mesh(Vec3(0.0, h, 0.0), 0.5),
      if h < 9.0 then Some(Mesh(Vec3(0.0, h, 0.0), 0.5)) else None,
      MonthSlots(h, DayTiles()))
  }

  /** The component: an omitted `height` is 0. */
  function YearDodecagonSlice(height: Option<real>): (scene: SliceScene)
    ensures height.None? ==> scene.dodecagon.position.y == 0.0 && scene.separator.Some?
    ensures height.Some? ==> scene.dodecagon.position.y == height.value
    ensures height.Some? ==> (scene.separator.Some? <==> height.value < 9.0)
  {
    SliceAt(height.GetOr(0.0))
  }

  // ---------------------------------------------------------------------
  // The month legend on the lower plinth
  // ---------------------------------------------------------------------

  /** A legend text element: its React key and its displayed string. */
  datatype LegendText = LegendText(key: string, caption: string)

  /**
   * Caption `c` shows key `k` after ` : `, and what comes before reads as
   * `position`, padded to two digits and otherwise as long as its plain spelling.
   */
  predicate Shows(c: string, k: string, position: nat) {
    && |c| >= 8 && c[|c| - 3..] == k && c[|c| - 6..|c| - 3] == " : "
    && Text.AllDigits(c[..|c| - 6]) && Text.ParseDecimal(c[..|c| - 6]) == position
    && |c| - 6 == (if position < 10 then 2 else |Text.Decimal(position)|)
  }

  /** `NN : KEY`, where NN is the 1-based position padded to two digits. */
  function LegendLabel(index: nat, m: Month): (l: string)
    ensures Shows(l, Key(m), index + 1)
  {
    Text.TwoDigitRead(index + 1);
    ThreeParts(Text.TwoDigit(index + 1), " : ", Key(m));
    Text.TwoDigit(index + 1) + " : " + Key(m)
  }

  /**
   * The `map` over a list of month keys: one entry per key, in list order.
   * Each caption shows its entry's own key and its 1-based position.
   */
  function LegendTexts(keys: seq<Month>): (r: seq<LegendText>)
    ensures |r| == |keys|
    ensures forall i :: 0 <= i < |r| ==> r[i].key == Key(keys[i]) && Shows(r[i].caption, r[i].key, i + 1)
  {
    seq(|keys|, i requires 0 <= i < |keys| => LegendText(Key(keys[i]), LegendLabel(i, keys[i])))
  }

  /** The plinth's own distribution; its radius equals the slice's by coincidence of two literals. */
  const PlinthRadius: real := 2.43
  const PlinthSegments: int := 12

  /** The lower plinth: its group position and scale, and the legend slots. */
  datatype PlinthScene = PlinthScene(position: Vec3, scale: real, legend: seq<Slot<LegendText>>)

  function LowerDecadePlinth(): (plinth: PlinthScene)
    ensures plinth.position == Vec3(0.0, -1.0, 0.0) && plinth.scale == 0.5
    ensures |plinth.legend| == |LegendTexts(Months)| == 12
    ensures forall i :: 0 <= i < |plinth.legend| ==> plinth.legend[i].content == Some(LegendTexts(Months)[i])
    ensures forall i :: 0 <= i < |plinth.legend| ==> plinth.legend[i].distance == PlinthRadius
  {
    assert |LegendTexts(Months)| == SlotCount(PlinthSegments) == 12;
    PlacedInOrder(PlinthSegments, PlinthRadius, Vec3(0.0, 0.0, 0.0), LegendTexts(Months));
    PlinthScene(Vec3(0.0, -1.0, 0.0), 0.5, Distribute(PlinthSegments, PlinthRadius, Vec3(0.0, 0.0, 0.0), LegendTexts(Months)))
  }

  /** Slicing a three-part concatenation at the part boundaries gives the parts back. */
  lemma ThreeParts<T>(a: seq<T>, b: seq<T>, c: seq<T>)
    ensures (a + b + c)[..|a|] == a
    ensures (a + b + c)[|a|..|a| + |b|] == b
    ensures (a + b + c)[|a| + |b|..] == c
  {
    var s := a + b + c;
    assert forall i :: 0 <= i < |a| ==> s[i] == a[i];
    assert forall i :: 0 <= i < |b| ==> s[|a| + i] == b[i];
  }

  /**
   * Legend entry `i` is keyed by the `i`-th month key and reads
   * `NN : KEY`: its first two characters spell `i + 1`, then ` : `, then the key.
   */
  lemma LegendShape(i: nat)
    requires i < 12
    ensures LegendTexts(Months)[i].key == Key(Months[i])
    ensures var l := LegendTexts(Months)[i].caption;
      && |l| == 8
      && Text.AllDigits(l[..2]) && Text.ParseDecimal(l[..2]) == i + 1
      && l[2..5] == " : "
      && l[5..] == Key(Months[i])
  {
    EntryCaption(i);
    LabelLength(i, Months[i]);
  }

  /** Below the hundredth entry a label is eight characters long: two digits, ` : `, a three-letter key. */
  lemma LabelLength(i: nat, m: Month)
    requires i < 99
    ensures |LegendLabel(i, m)| == 8
  {
    Text.TwoDigitSpelling(i + 1);
  }

  /** Entry `i`'s caption: the tens and units digit of `i + 1`, then ` : ` and the month key. */
  lemma LegendCaption(i: nat)
    requires i < 12
    ensures LegendTexts(Months)[i].caption == [Text.DigitChar((i + 1) / 10), Text.DigitChar((i + 1) % 10)] + " : " + Key(Months[i])
  {
    var m := Months[i];
    assert LegendTexts(Months)[i].caption == LegendLabel(i, m);
    Text.TwoDigitSpelling(i + 1);
  }

  /** Entry `i`'s caption is the label built from its position and month. */
  lemma EntryCaption(i: nat)
    requires i < 12
    ensures LegendTexts(Months)[i].caption == LegendLabel(i, Months[i])
  {
  }

  /** No two legend entries share a key or a caption. */
  lemma LegendDistinct()
    ensures forall i, j :: 0 <= i < j < |LegendTexts(Months)| ==> LegendTexts(Months)[i].key != LegendTexts(Months)[j].key
    ensures forall i, j :: 0 <= i < j < |LegendTexts(Months)| ==> LegendTexts(Months)[i].caption != LegendTexts(Months)[j].caption
  {
    var t := LegendTexts(Months);
    MonthsEnumerated();
    forall i, j | 0 <= i < j < |t|
      ensures t[i].key != t[j].key && t[i].caption != t[j].caption
    {
      LegendShape(i);
      LegendShape(j);
      assert Key(Months[i]) != Key(Months[j]);
      assert t[i].caption[5..] != t[j].caption[5..];
    }
  }
}
